=== FILE: README.md ===
# fileparsers — a Dafny model

`fileparsers.js` lists the files under a directory tree. It offers three things:

- `extReg`/`matcher` turn an extension string into a filter.
- `rparsefSYNC` walks the tree synchronously, in pre-order. It skips subtrees whose path matches `ignore` and collects the truthy `filter` values of file paths.
- `rparse`/`rparsef` walk the tree asynchronously. They use one pending-work counter, `remainingEntries`, to decide when to call `callback` with the collection.

The model replaces the filesystem with an immutable tree:
`Entry = Dir(children) | File | Other | Missing`. `Other` is anything that is neither a directory nor a file. `Missing` is a path whose `stat` fails. Child paths are `parent + "/" + name`.

A JavaScript filter is a function `string -> Option<V>`. Every falsy result (`undefined`, `false`, `""`, `0`) is `None`. The `ignore` regex is an opaque pure predicate.

The asynchronous walkers are a state machine. The state holds:

- the counter;
- a pool of outstanding callbacks (`StatDone(path, entry)`, `ReaddirDone(path, children)`);
- the collection;
- the list of collections handed to `callback`;
- an `aborted` flag for a throw inside a callback.

The event loop may run the callback of any outstanding event next. A schedule is a sequence of pool indices. The pool is a sequence only so that it can be summed; its order carries no meaning. Lemmas quantify over every schedule.

Two counter disciplines are modelled in `AsyncWalk.Step`:

- `AsWritten` is the source's: −1 on a directory's or a file's `stat`, +n on a listing of n names, and nothing on an `Other`.
- `Ledger` is the corrected one: a directory's unit passes to its `readdir`, and every resolved event settles one unit.

`rparse` is `rparsef` with the filter `p => Some(p)`. At line 129 `rparse` decrements before issuing `readdir`, and at line 198 `rparsef` decrements after. That difference cannot be observed, because each callback runs to completion before the next one starts.

Files: `wrappers.dfy` (Option, Result), `fs_tree.dfy` (tree, filter argument), `ext_filter.dfy`, `sync_walk.dfy`, `async_walk.dfy` (state machine), `async_counter.dfy` (what the source's counter does), `async_ledger.dfy` (the corrected counter), `async_results.dfy` (what the async walks collect, how long they run).

The source's own comments promise more than its code does. The model follows the code, and "## Findings" records both gaps:

- The doc comment of `extReg` (lines 50-51) describes a pattern "for matching filepaths ending with that extension". The pattern has no end anchor, so `"c.jsx"` and `"c.js2"` pass the `"js"` filter. The guard accepts any string with one `[a-zA-Z0-9/]` character, such as `"js!"`.
- The comments at lines 140 and 211 say "all entries have been parsed" when `callback` runs. The counter can reach 0 while a listing is outstanding, so `callback` may run early, more than once, or before a throw. On a tree without files it never runs.

A failing `stat` in the async walk throws inside its own callback (lines 126 and 187); `callback` is never told of it.

## Model

| member | source | states |
|---|---|---|
| ExtFilter.GuardTest | fileparsers.js:58-60 | the guard succeeds exactly when at least one character anywhere in `ext` is in `[a-zA-Z0-9/]` (unanchored `test`) |
| ExtFilter.ExtReg | fileparsers.js:57-66 | for an `ext` without regular-expression metacharacters, `extReg` returns a pattern exactly when `ext` is a string containing some `[a-zA-Z0-9/]` character, the pattern carries `ext`, and otherwise it throws "not a file extension" |
| ExtFilter.MatchAt | fileparsers.js:61 | for a literal `ext`, testing the maximal run of `[\w\-\/]` characters at `k` decides exactly whether the backtracking pattern `[\w\-\/]+\.ext` matches at `k` |
| ExtFilter.SearchFrom | fileparsers.js:86 | returns the leftmost match position at or after `k`, or -1 exactly when no position matches |
| ExtFilter.Search | fileparsers.js:86 | `path.search(reg)` returns the leftmost match position or -1 when the pattern occurs nowhere |
| ExtFilter.Matcher | fileparsers.js:83-93 | `matcher(ext)` throws exactly when `ext` is not a string with some `[a-zA-Z0-9/]` character; otherwise its filter returns the path unchanged exactly when some `.` preceded by a `[\w\-\/]` character is immediately followed by `ext`, anywhere in the path, and `undefined` otherwise |
| ExtFilter.MatchStartIffExtAfterDot | fileparsers.js:61 | a match starts somewhere exactly when some `.` preceded by a `[\w\-\/]` character is immediately followed by `ext` |
| ExtFilter.GuardAcceptsNonExtensions | fileparsers.js:58-60 | `"js!"` and `"*j"` pass the guard; `""`, `"!."` and non-strings throw |
| ExtFilter.MatcherIgnoresPathEnd | fileparsers.js:61 | the `"js"` filter accepts `"c.jsx"`: no end anchor |
| ExtFilter.MatcherAcceptsExtension | fileparsers.js:83-92 | the `"js"` filter accepts `"a/b/c.js"` unchanged |
| ExtFilter.MatcherNeedsCharBeforeDot | fileparsers.js:61 | the `"js"` filter rejects `".js"`, whose dot has no `[\w\-\/]` character before it |
| ExtFilter.StrictGuard | fileparsers.js:58-60 | corrected guard: succeeds exactly when `ext` is non-empty and every character is in `[a-zA-Z0-9/]` |
| ExtFilter.StrictExtReg | fileparsers.js:57-66 | corrected `extReg`: returns a pattern exactly when `ext` is a non-empty string made only of `[a-zA-Z0-9/]` |
| ExtFilter.AnchoredMatcher | fileparsers.js:50-61 | corrected `matcher`: throws unless `ext` is a non-empty string made only of `[a-zA-Z0-9/]`; otherwise its filter returns the path exactly when the end-anchored pattern `[\w\-\/]+\.ext$` matches somewhere in it, and `undefined` otherwise |
| ExtFilter.EndAnchoredMatchIffEndsWithExt | fileparsers.js:50-61 | the end-anchored pattern matches somewhere in a path exactly when the path ends with `.ext` and a `[\w\-\/]` character precedes that dot |
| ExtFilter.AnchoredMatcherExamples | fileparsers.js:50-61 | the corrected filter accepts `"a/b/c.js"` and rejects `"c.jsx"` and `"c.js2"`; the corrected guard rejects `"js!"` |
| FsTree.Join | fileparsers.js:262 | a child's path is the parent path, one `/`, then the name, so both parts can be read back from it |
| SyncWalk.Visit | fileparsers.js:247-276 | `parseR` throws exactly when it reaches an entry whose `stat` fails without passing through an ignored path, and what it throws is the error of the first such entry in pre-order and listing order |
| SyncWalk.VisitChildren | fileparsers.js:258-264 | the loop over a listing throws exactly when some child subtree reaches a failing `stat` outside ignored paths, and it throws the error of the first one in listing order |
| SyncWalk.FirstFailingStatIsThrown | fileparsers.js:258-264 | of two listed entries that both fail to `stat`, the walk throws the error of the first one, `"r/a"` |
| SyncWalk.VisitIsFilteredFiles | fileparsers.js:247-276 | when `parseR` does not throw, it returns the truthy `filter` values of the unignored file paths in pre-order and listing order, and nothing for directories or other entries |
| SyncWalk.VisitChildrenIsFilteredFiles | fileparsers.js:258-264 | when the loop over a listing does not throw, it concatenates the children's results in listing order |
| SyncWalk.FilesOfAreNotIgnored | fileparsers.js:249 | no path offered to `filter` matches `ignore` |
| SyncWalk.IgnoredSubtreesAreInvisible | fileparsers.js:249-250 | trees that differ only at or below ignored paths give identical results (their contents are never statted, listed or filtered), and an ignored root yields `[]` |
| SyncWalk.IgnoredChildrenAreInvisible | fileparsers.js:260-263 | listings whose children differ only below ignored child paths give identical results |
| SyncWalk.RparsefSync | fileparsers.js:240-281 | throws "filter must be a javascript function" whatever the tree when `filter` is not a function; otherwise throws exactly when an unignored `stat` fails, with the error of the first such path in pre-order, and returns the filtered unignored file paths in pre-order |
| AsyncWalk.Step | fileparsers.js:124-145 | a callback only appends to the collection; it fires `callback` at most once, and only when the counter is then 0, with the current collection; under the source's accounting it fires only from a file's `stat` callback; a throw ends the walk without a callback |
| AsyncWalk.Run | fileparsers.js:123-149 | along any schedule the collection and the list of callback invocations only grow |
| AsyncWalk.AbortIsFinal | fileparsers.js:125-126 | an aborted walk stays aborted, whatever is scheduled after it |
| AsyncWalk.NothingRunsAfterAbort | fileparsers.js:124-127 | a callback that throws leaves no callback outstanding, so from a state with nothing outstanding after a throw no further callback can be scheduled |
| AsyncWalk.AbortEndsWalk | fileparsers.js:117-150 | from the start of `rparse`/`rparsef`, once a callback has thrown nothing is outstanding and no further callback runs |
| AsyncCounter.StatsInSpawn | fileparsers.js:131-134 | a listing of n names issues exactly n `stat` requests |
| AsyncCounter.CounterDrift | fileparsers.js:128-138 | along any non-throwing schedule the counter changes as the outstanding-`stat` count does, plus one per `stat` that found neither a directory nor a file |
| AsyncCounter.CounterCountsOutstandingStats | fileparsers.js:177-209 | from the start, on every schedule, the counter equals the outstanding `stat`s plus the `stat`s that found neither kind; pending `readdir`s are not counted and the counter is never negative |
| AsyncCounter.SingleFileRootFiresOnce | fileparsers.js:137-143 | for a root that is a single file, the walk fires `callback` exactly once, with the root's truthy `filter` value (`[basePath]` for `rparse`) |
| AsyncCounter.FileFreePoolNeverFires | fileparsers.js:137-143 | while no outstanding event can lead to a file, `callback` is never invoked |
| AsyncCounter.NeverFiresWithoutFiles | fileparsers.js:128-135 | for a tree with no regular file `callback` never fires, whatever the order of events |
| AsyncCounter.EmptyRootNeverCompletes | fileparsers.js:128-135 | an empty root directory runs both of its callbacks, leaves nothing outstanding, and never calls back |
| AsyncCounter.OtherBlocksCompletion | fileparsers.js:128-143 | `rparse` on `r = [f, o]`, with `f` a file and `o` neither a directory nor a file, runs all four callbacks, collects `["r/f"]`, leaves nothing outstanding with the counter stuck at 1, and never calls back |
| AsyncCounter.FiresEarly | fileparsers.js:128-143 | on `r = [d = [g], f]`, whatever `g` is, four callbacks (`r`'s stat and listing, `d`'s stat, `f`'s stat) leave counter 0, `d`'s listing outstanding and `callback(["r/f"])` already invoked |
| AsyncCounter.FiresAgain | fileparsers.js:130-143 | from that state, `d`'s listing and `g`'s stat invoke `callback` a second time, with `["r/f", "r/d/g"]` |
| AsyncCounter.FiresEarlyAndTwice | fileparsers.js:140-142 | for `r = [d = [g], f]`, `f`'s `stat` resolving between `d`'s `stat` and `d`'s `readdir` fires `callback(["r/f"])` while work is outstanding, and later fires again with `["r/f", "r/d/g"]` |
| AsyncCounter.ThrowsAfterFiring | fileparsers.js:124-131 | from that state with `g` failing to `stat`, `d`'s listing and `g`'s `stat` callback run, and the walk throws with `callback(["r/f"])` already invoked |
| AsyncCounter.FaultAfterEarlyDelivery | fileparsers.js:124-142 | for `r = [d = [g], f]` with `g` failing to `stat`, the same schedule hands `callback` the partial collection `["r/f"]` and then throws |
| AsyncCounter.FlatDirFiresOnceAtEnd | fileparsers.js:128-143 | for `rparse` on a directory of n >= 1 regular files, on every schedule the walk does not throw, `callback` fires at most once, exactly when nothing is outstanding, and then with n paths |
| AsyncLedger.LedgerStepKeepsBalance | fileparsers.js:128-143 | under the corrected accounting, each callback keeps the counter equal to the number of outstanding events, with `callback` fired exactly when none remain |
| AsyncLedger.LedgerRunKeepsBalance | fileparsers.js:128-143 | the corrected balance holds after any schedule |
| AsyncLedger.LedgerFiresOnceWhenDrained | fileparsers.js:140-142 | under the corrected accounting, on every schedule `callback` fires at most once, exactly when everything has resolved without a throw, and then with the whole collection; a walk that throws never calls back |
| AsyncResults.PoolYieldSpawn | fileparsers.js:131-134 | the `stat`s a listing issues will together contribute exactly what the listing's subtrees hold |
| AsyncResults.StepShape | fileparsers.js:128-139 | a non-throwing callback replaces its event by the requests it issues and pushes only a file's truthy `filter` value |
| AsyncResults.EventYieldSplits | fileparsers.js:128-139 | what an event will still contribute is what its callback pushes plus what its issued requests will contribute |
| AsyncResults.StepConserves | fileparsers.js:128-143 | a non-throwing callback moves accepted values from outstanding work into the collection without losing or inventing any |
| AsyncResults.StepShrinksWork | fileparsers.js:124-145 | every callback removes at least one unit of remaining work |
| AsyncResults.RunConserves | fileparsers.js:123-149 | along any non-throwing schedule, collected plus still-to-come accepted values stay the same |
| AsyncResults.AbortNeedsMissing | fileparsers.js:124-127 | a walk throws only if a failing `stat` was still to come |
| AsyncResults.RunLengthBounded | fileparsers.js:123-147 | no schedule is longer than the remaining work of its pool |
| AsyncResults.WalksTerminate | fileparsers.js:117-150 | every schedule of a walk has at most one callback per `stat` and per `readdir` the tree can cause |
| AsyncResults.MissingReachedIffCounted | fileparsers.js:250 | without `ignore`, the synchronous walk meets a failing `stat` exactly when the tree holds one |
| AsyncResults.DrainedRunCollectsAll | fileparsers.js:201-209 | a drained, non-throwing async run has collected exactly the accepted values of all the tree's files |
| AsyncResults.DrainedRunAgreesWithSyncWalk | fileparsers.js:173-220 | once everything has resolved, the async walk has thrown exactly when `rparsefSYNC` throws, and otherwise holds the same accepted values in some order, on every schedule and under either accounting |
| AsyncResults.RparseCollectsEveryFile | fileparsers.js:117-150 | once every outstanding callback of `rparse` has run without a throw, its collection holds exactly the tree's file paths, in some order, under either accounting |
| AsyncResults.RparsefChecksBeforeWalking | fileparsers.js:179-181 | whether `rparsef` throws on its `filter` does not depend on the tree, and it throws exactly when `rparsefSYNC` throws its filter error, whatever the tree and `ignore` |

## Left out

- Logging (`loginit`, `llog.l`): it records progress only and has no effect on results.
- The real `fs.stat`, `fs.readdir`, `fs.statSync`, `fs.readdirSync` and the Node event loop: replaced by the tree and the nondeterministic choice of the next outstanding callback. No real concurrency is modelled.
- ExtFilter.ExtReg: reads `ext` literally. `new RegExp` at line 61 interprets regular-expression metacharacters (`.`, `*`, `(`, …) in `ext`, and throws `SyntaxError` for some of them, such as `"a("`. Neither is modelled, so for such an `ext` the model returns a pattern where the source may throw.
- ExtFilter.Matcher: inherits the literal reading of `ext` from `ExtFilter.ExtReg`.
- Stateful `lastIndex` of a `g`-flagged `ignore` regex: `ignore` is a pure predicate. An `ignore` that is neither `undefined` nor an object with `test` is also not modelled.
- SyncWalk.Visit: `fs.readdirSync` (line 260) throws on a directory it cannot list, which ends `rparsefSYNC`. The tree has no unlistable directory, so this throw is not modelled; only a failing `statSync` is.
- An error from `readdir` in the async walks (lines 130 and 192): it is unchecked in the source. The tree is immutable, so a directory's listing never fails here.
- A throw inside a `stat` callback (lines 125-126, 186-187) is the `aborted` state, which ends the walk. What Node does with the uncaught exception is not modelled.
- The `stat.err` check at line 254 is dead code (`statSync` throws instead); it is not modelled. Symlinks and cycles are not modelled either: the tree is finite and acyclic.
- `callback` receives the same array that later callbacks keep growing. The model records a snapshot of the collection at each invocation.
- A `filter` that throws or has side effects: filters are pure total functions.
- `basePath` is not resolved: the root entry is given with it.

## Findings

| source | as written | input that shows it | evidently intended | confidence | as-written member | corrected member |
|---|---|---|---|---|---|---|
| fileparsers.js:58-60 | the guard `/[a-zA-Z0-9\/]/.test(ext)` passes any string with one such character | `extReg("js!")` returns a pattern | reject anything that is not made only of `[a-zA-Z0-9/]` | medium; not executed | ExtFilter.GuardAcceptsNonExtensions | ExtFilter.StrictExtReg |
| fileparsers.js:61 | the pattern `[\w\-\/]+\.ext` has no end anchor, though lines 50-51 say "ending with that extension" | `matcher("js")("c.jsx")` returns `"c.jsx"` | accept only paths ending with `.ext` | high; not executed | ExtFilter.MatcherIgnoresPathEnd | ExtFilter.AnchoredMatcher |
| fileparsers.js:129-142 | the counter drops a directory's unit at its `stat` while its `readdir` is still outstanding | tree `r = [d = [g], f]`, `f`'s `stat` after `d`'s `stat` and before `d`'s `readdir`: `callback` fires with `["r/f"]`, then again | call back once, after every entry has been parsed | high; not executed | AsyncCounter.FiresEarlyAndTwice | AsyncLedger.LedgerFiresOnceWhenDrained |
| fileparsers.js:128-143 | only a file's `stat` callback tests the counter | an empty root directory: both callbacks run and `callback` is never invoked | call back once when the walk is done, also for trees without files | high; not executed | AsyncCounter.NeverFiresWithoutFiles | AsyncLedger.LedgerFiresOnceWhenDrained |
| fileparsers.js:128-138 | a `stat` that finds neither a directory nor a file never settles its unit | `r = [f, o]` with `o` a socket: all callbacks run, the counter stays at 1, and `callback` is never invoked | call back once when the walk is done, whatever kinds of entries the tree holds | high; not executed | AsyncCounter.OtherBlocksCompletion | AsyncLedger.LedgerFiresOnceWhenDrained |
| fileparsers.js:124-142 | a failing `stat` throws after the counter has already reached 0 once | tree `r = [d = [g], f]` with `g` failing, same schedule as above: `callback(["r/f"])`, then the throw | a walk that throws never calls back with partial results | high; not executed | AsyncCounter.FaultAfterEarlyDelivery | AsyncLedger.LedgerFiresOnceWhenDrained |

=== FILE: async_counter.dfy ===
/** What the counter of `rparse`/`rparsef` actually tracks, and what that
    means for the completion callback, over every order in which the event
    loop may run the outstanding callbacks. */
module AsyncCounter {
  import opened Wrappers
  import opened FsTree
  import opened AsyncWalk

  /** One for a `stat` request, none for a `readdir`. */
  function StatCount(ev: Event): nat
  {
    if ev.StatDone? then 1 else 0
  }

  /** The number of outstanding `stat` requests. */
  function StatsIn(pool: seq<Event>): nat
  {
    Sum(pool, StatCount)
  }

  lemma {:induction false} StatsInSpawn(path: string, ch: seq<Child>)
    ensures StatsIn(Spawn(path, ch)) == |ch|
    decreases |ch|
  {
    if ch != [] {
      assert Spawn(path, ch)[1..] == Spawn(path, ch[1..]);
      StatsInSpawn(path, ch[1..]);
      assert StatCount(Spawn(path, ch)[0]) == 1;
    }
  }

  /** How many `stat` callbacks along the run found neither a directory nor a
      file (nor failed); the source's counter never hears of them. */
  function OthersResolved<V>(filter: string -> Option<V>, s: State<V>, sched: seq<nat>): nat
    requires Schedulable(AsWritten, filter, s, sched)
    decreases |sched|
  {
    if sched == [] then 0
    else
      var ev := s.pool[sched[0]];
      (if ev.StatDone? && ev.entry.Other? then 1 else 0)
      + OthersResolved(filter, Step(AsWritten, filter, s, sched[0]), sched[1..])
  }

  /** Along any run that does not throw, the counter moves exactly as the
      number of outstanding `stat` requests does, except that every `stat`
      resolving to neither a directory nor a file leaves one unit behind. */
  lemma {:induction false} CounterDrift<V>(filter: string -> Option<V>, s: State<V>, sched: seq<nat>)
    requires Schedulable(AsWritten, filter, s, sched)
    requires !Run(AsWritten, filter, s, sched).aborted
    ensures Run(AsWritten, filter, s, sched).remaining - StatsIn(Run(AsWritten, filter, s, sched).pool)
         == s.remaining - StatsIn(s.pool) + OthersResolved(filter, s, sched)
    decreases |sched|
  {
    if sched != [] {
      var i := sched[0];
      var t := Step(AsWritten, filter, s, i);
      if t.aborted {
        AbortIsFinal(AsWritten, filter, t, sched[1..]);
      }
      SumRemove(s.pool, i, StatCount);
      match s.pool[i] {
        case StatDone(p, e) =>
          if e.Dir? {
            SumAppend(Remove(s.pool, i), [ReaddirDone(p, e.children)], StatCount);
            SumOne(ReaddirDone(p, e.children), StatCount);
          }
        case ReaddirDone(p, ch) =>
          SumAppend(Remove(s.pool, i), Spawn(p, ch), StatCount);
          StatsInSpawn(p, ch);
      }
      CounterDrift(filter, t, sched[1..]);
    }
  }

  /** From the start of `rparse`/`rparsef`, and on every schedule that has
      not thrown, the counter equals the outstanding `stat` requests plus the
      `stat`s that found neither a directory nor a file; outstanding
      `readdir`s are not counted at all. In particular it is never negative. */
  lemma CounterCountsOutstandingStats<V>(filter: string -> Option<V>, basePath: string, root: Entry, sched: seq<nat>)
    requires Schedulable(AsWritten, filter, Start(basePath, root), sched)
    requires !Run(AsWritten, filter, Start(basePath, root), sched).aborted
    ensures Run(AsWritten, filter, Start(basePath, root), sched).remaining
         == StatsIn(Run(AsWritten, filter, Start(basePath, root), sched).pool) + OthersResolved(filter, Start(basePath, root), sched)
    ensures Run(AsWritten, filter, Start(basePath, root), sched).remaining >= 0
  {
    var s: State<V> := Start(basePath, root);
    SumOne(StatDone(basePath, root), StatCount);
    CounterDrift(filter, s, sched);
  }

  /** A root that is a single file: the only callback is its `stat`, which
      fires the completion callback exactly once, with the file's `filter`
      value when it is truthy (with `[basePath]` for `rparse`). */
  lemma SingleFileRootFiresOnce<V>(filter: string -> Option<V>, basePath: string, sched: seq<nat>)
    requires Schedulable(AsWritten, filter, Start(basePath, File), sched)
    ensures |sched| <= 1
    ensures |sched| == 1 ==>
      Run(AsWritten, filter, Start(basePath, File), sched).deliveries == [Keep(filter(basePath))]
      && Run(AsWritten, filter, Start(basePath, File), sched).pool == []
  {
    if sched != [] {
      var t := Step(AsWritten, filter, Start(basePath, File), sched[0]);
      assert t.pool == [];
      assert t.collection == [] + Keep(filter(basePath)) == Keep(filter(basePath));
      assert Run(AsWritten, filter, Start(basePath, File), sched) == t;
    }
  }

  // ---------------------------------------------------------------------
  // The completion claim, "all entries have been parsed", does not hold
  // ---------------------------------------------------------------------

  /** Every `stat` this event could lead to is of something other than a file. */
  predicate FileFree(ev: Event)
  {
    match ev
    case StatDone(_, e) => NoFiles(e)
    case ReaddirDone(_, ch) => forall k :: 0 <= k < |ch| ==> NoFiles(ch[k].entry)
  }

  lemma {:induction false} FileFreePoolNeverFires<V>(filter: string -> Option<V>, s: State<V>, sched: seq<nat>)
    requires Schedulable(AsWritten, filter, s, sched)
    requires forall j :: 0 <= j < |s.pool| ==> FileFree(s.pool[j])
    ensures Run(AsWritten, filter, s, sched).deliveries == s.deliveries
    decreases |sched|
  {
    if sched != [] {
      var i := sched[0];
      var t := Step(AsWritten, filter, s, i);
      var rest := Remove(s.pool, i);
      assert forall j :: 0 <= j < |rest| ==> rest[j] == (if j < i then s.pool[j] else s.pool[j + 1]);
      assert forall j :: 0 <= j < |t.pool| ==> FileFree(t.pool[j]);
      FileFreePoolNeverFires(filter, t, sched[1..]);
    }
  }

  /** When the tree holds no regular file (an empty directory, say) the
      completion callback never fires, whatever the order of events: the only
      place it can fire is a file's `stat` callback. */
  lemma NeverFiresWithoutFiles<V>(filter: string -> Option<V>, basePath: string, root: Entry, sched: seq<nat>)
    requires NoFiles(root)
    requires Schedulable(AsWritten, filter, Start(basePath, root), sched)
    ensures Run(AsWritten, filter, Start(basePath, root), sched).deliveries == []
  {
    FileFreePoolNeverFires(filter, Start(basePath, root), sched);
  }

  /** An empty root directory: both of its callbacks run, nothing is left
      outstanding, and the completion callback has not fired. */
  lemma EmptyRootNeverCompletes()
    ensures Schedulable(AsWritten, KeepPath, Rparse("r", Dir([])), [0, 0])
    ensures Run(AsWritten, KeepPath, Rparse("r", Dir([])), [0, 0]).pool == []
    ensures Run(AsWritten, KeepPath, Rparse("r", Dir([])), [0, 0]).deliveries == []
  {
    var s0 := Rparse("r", Dir([]));
    var s1 := Step(AsWritten, KeepPath, s0, 0);
    assert s1.pool == [ReaddirDone("r", [])];
    var s2 := Step(AsWritten, KeepPath, s1, 0);
    assert s2.pool == [] && s2.deliveries == [];
    assert Schedulable(AsWritten, KeepPath, s2, []);
    assert Run(AsWritten, KeepPath, s1, [0]) == s2;
  }

  /** A file next to an entry that is neither a directory nor a file: the
      walk drains with the file collected, but the `Other` entry's unit is
      never settled, so `callback` never fires. */
  lemma OtherBlocksCompletion()
    ensures Schedulable(AsWritten, KeepPath, Rparse("r", Dir([Child("f", File), Child("o", Other)])), [0, 0, 0, 0])
    ensures Run(AsWritten, KeepPath, Rparse("r", Dir([Child("f", File), Child("o", Other)])), [0, 0, 0, 0]).pool == []
    ensures Run(AsWritten, KeepPath, Rparse("r", Dir([Child("f", File), Child("o", Other)])), [0, 0, 0, 0]).collection == ["r/f"]
    ensures Run(AsWritten, KeepPath, Rparse("r", Dir([Child("f", File), Child("o", Other)])), [0, 0, 0, 0]).deliveries == []
    ensures Run(AsWritten, KeepPath, Rparse("r", Dir([Child("f", File), Child("o", Other)])), [0, 0, 0, 0]).remaining == 1
  {
    var ch := [Child("f", File), Child("o", Other)];
    var s0 := Rparse("r", Dir(ch));
    var s1 := Step(AsWritten, KeepPath, s0, 0);
    assert s1.remaining == 0 && s1.pool == [ReaddirDone("r", ch)];
    var s2 := Step(AsWritten, KeepPath, s1, 0);
    assert Join("r", "f") == "r/f" && Join("r", "o") == "r/o";
    assert Spawn("r", ch) == [StatDone("r/f", File), StatDone("r/o", Other)];
    assert s2.remaining == 2 && s2.pool == [StatDone("r/f", File), StatDone("r/o", Other)];
    var s3 := Step(AsWritten, KeepPath, s2, 0);
    assert s3.collection == [] + Keep(KeepPath("r/f")) == ["r/f"];
    assert s3.remaining == 1 && s3.pool == [StatDone("r/o", Other)] && s3.deliveries == [];
    var s4 := Step(AsWritten, KeepPath, s3, 0);
    assert s4.pool == [] && s4.remaining == 1 && s4.deliveries == [];
    assert Run(AsWritten, KeepPath, s3, [0]) == s4;
    assert Run(AsWritten, KeepPath, s2, [0, 0]) == s4;
    assert Run(AsWritten, KeepPath, s1, [0, 0, 0]) == s4;
  }

  /** Root `r` lists a directory `d` (holding one entry `g`) and a file `f`. */
  function EarlyFiringTree(g: Entry): Entry
  {
    Dir([Child("d", Dir([Child("g", g)])), Child("f", File)])
  }

  /** The schedule: `r`'s stat and listing, `d`'s stat, then `f`'s stat
      before `d`'s listing, then `d`'s listing and `g`'s stat. */
  function EarlyFiringSchedule(): seq<nat>
  {
    [0, 0, 0, 0, 0, 0]
  }

  /** Running `a` and then `b` is running `a + b`. */
  lemma {:induction false} RunAppend<V>(acc: Accounting, filter: string -> Option<V>, s: State<V>, a: seq<nat>, b: seq<nat>)
    requires Schedulable(acc, filter, s, a)
    requires Schedulable(acc, filter, Run(acc, filter, s, a), b)
    ensures Schedulable(acc, filter, s, a + b)
    ensures Run(acc, filter, s, a + b) == Run(acc, filter, Run(acc, filter, s, a), b)
    decreases |a|
  {
    if a == [] {
      assert a + b == b;
    } else {
      assert (a + b)[0] == a[0] && (a + b)[1..] == a[1..] + b;
      RunAppend(acc, filter, Step(acc, filter, s, a[0]), a[1..], b);
    }
  }

  /** A schedule `a + b` runs `a` first, then `b` from where `a` ended. */
  lemma {:induction false} RunAppendSplit<V>(acc: Accounting, filter: string -> Option<V>, s: State<V>, a: seq<nat>, b: seq<nat>)
    requires Schedulable(acc, filter, s, a + b)
    ensures Schedulable(acc, filter, s, a)
    ensures Schedulable(acc, filter, Run(acc, filter, s, a), b)
    ensures Run(acc, filter, s, a + b) == Run(acc, filter, Run(acc, filter, s, a), b)
    decreases |a|
  {
    if a == [] {
      assert a + b == b;
    } else {
      assert (a + b)[0] == a[0] && (a + b)[1..] == a[1..] + b;
      RunAppendSplit(acc, filter, Step(acc, filter, s, a[0]), a[1..], b);
    }
  }

  /** The state of the walk on `EarlyFiringTree(g)` after four callbacks of that
      schedule: `callback(["r/f"])` has run, and `d`'s listing is still out. */
  function EarlyFiredState(g: Entry): State<string>
  {
    State(0, [ReaddirDone("r/d", [Child("g", g)])], ["r/f"], [["r/f"]], false)
  }

  lemma FiresEarly(g: Entry)
    ensures Schedulable(AsWritten, KeepPath, Rparse("r", EarlyFiringTree(g)), [0, 0, 0, 0])
    ensures Run(AsWritten, KeepPath, Rparse("r", EarlyFiringTree(g)), [0, 0, 0, 0]) == EarlyFiredState(g)
  {
    var dch := [Child("g", g)];
    var s0 := Rparse("r", EarlyFiringTree(g));
    var s1 := Step(AsWritten, KeepPath, s0, 0);
    assert s1.remaining == 0 && s1.pool == [ReaddirDone("r", EarlyFiringTree(g).children)];
    var s2 := Step(AsWritten, KeepPath, s1, 0);
    assert Join("r", "d") == "r/d" && Join("r", "f") == "r/f";
    assert Spawn("r", EarlyFiringTree(g).children) == [StatDone("r/d", Dir(dch)), StatDone("r/f", File)];
    assert s2.remaining == 2 && s2.pool == [StatDone("r/d", Dir(dch)), StatDone("r/f", File)];
    var s3 := Step(AsWritten, KeepPath, s2, 0);
    assert s3.remaining == 1 && s3.pool == [StatDone("r/f", File), ReaddirDone("r/d", dch)];
    var s4 := Step(AsWritten, KeepPath, s3, 0);
    assert s4.collection == [] + Keep(KeepPath("r/f")) == ["r/f"];
    assert s4 == EarlyFiredState(g);
    assert Run(AsWritten, KeepPath, s3, [0]) == s4;
    assert Run(AsWritten, KeepPath, s2, [0, 0]) == s4;
    assert Run(AsWritten, KeepPath, s1, [0, 0, 0]) == s4;
  }

  lemma FiresAgain()
    ensures Schedulable(AsWritten, KeepPath, EarlyFiredState(File), [0, 0])
    ensures Run(AsWritten, KeepPath, EarlyFiredState(File), [0, 0]).deliveries == [["r/f"], ["r/f", "r/d/g"]]
  {
    var s4 := EarlyFiredState(File);
    var s5 := Step(AsWritten, KeepPath, s4, 0);
    assert Join("r/d", "g") == "r/d/g";
    assert Spawn("r/d", [Child("g", File)]) == [StatDone("r/d/g", File)];
    assert s5.remaining == 1 && s5.pool == [StatDone("r/d/g", File)] && s5.collection == ["r/f"];
    var s6 := Step(AsWritten, KeepPath, s5, 0);
    assert s6.collection == ["r/f"] + Keep(KeepPath("r/d/g")) == ["r/f", "r/d/g"];
    assert s6.deliveries == [["r/f"], ["r/f", "r/d/g"]];
    assert Run(AsWritten, KeepPath, s5, [0]) == s6;
  }

  /** On that schedule `rparse` calls back twice: first with `["r/f"]` while
      `d`'s listing is still outstanding, then again with both files. */
  lemma FiresEarlyAndTwice()
    ensures Schedulable(AsWritten, KeepPath, Rparse("r", EarlyFiringTree(File)), EarlyFiringSchedule())
    ensures Run(AsWritten, KeepPath, Rparse("r", EarlyFiringTree(File)), EarlyFiringSchedule()[..4]).deliveries == [["r/f"]]
    ensures Run(AsWritten, KeepPath, Rparse("r", EarlyFiringTree(File)), EarlyFiringSchedule()[..4]).pool != []
    ensures Run(AsWritten, KeepPath, Rparse("r", EarlyFiringTree(File)), EarlyFiringSchedule()).deliveries == [["r/f"], ["r/f", "r/d/g"]]
  {
    FiresEarly(File);
    FiresAgain();
    assert EarlyFiringSchedule() == [0, 0, 0, 0] + [0, 0];
    assert EarlyFiringSchedule()[..4] == [0, 0, 0, 0];
    RunAppend(AsWritten, KeepPath, Rparse("r", EarlyFiringTree(File)), [0, 0, 0, 0], [0, 0]);
  }

  /** With `g` failing to `stat`, the last two callbacks list `d` and then
      throw, after `callback` has already been given `["r/f"]`. */
  lemma ThrowsAfterFiring()
    ensures Schedulable(AsWritten, KeepPath, EarlyFiredState(Missing), [0, 0])
    ensures Run(AsWritten, KeepPath, EarlyFiredState(Missing), [0, 0]).aborted
    ensures Run(AsWritten, KeepPath, EarlyFiredState(Missing), [0, 0]).deliveries == [["r/f"]]
  {
    var s4 := EarlyFiredState(Missing);
    var s5 := Step(AsWritten, KeepPath, s4, 0);
    assert Join("r/d", "g") == "r/d/g";
    assert Spawn("r/d", [Child("g", Missing)]) == [StatDone("r/d/g", Missing)];
    assert s5.pool == [StatDone("r/d/g", Missing)] && s5.deliveries == [["r/f"]];
    var s6 := Step(AsWritten, KeepPath, s5, 0);
    assert s6.aborted && s6.deliveries == [["r/f"]];
    assert Run(AsWritten, KeepPath, s5, [0]) == s6;
  }

  /** A walk that throws may already have called back: on `EarlyFiringTree(Missing)`
      the same schedule hands `callback` the partial collection `["r/f"]`
      and then throws on `g`'s failing `stat`. */
  lemma FaultAfterEarlyDelivery()
    ensures Schedulable(AsWritten, KeepPath, Rparse("r", EarlyFiringTree(Missing)), EarlyFiringSchedule())
    ensures Run(AsWritten, KeepPath, Rparse("r", EarlyFiringTree(Missing)), EarlyFiringSchedule()).aborted
    ensures Run(AsWritten, KeepPath, Rparse("r", EarlyFiringTree(Missing)), EarlyFiringSchedule()).deliveries == [["r/f"]]
  {
    FiresEarly(Missing);
    ThrowsAfterFiring();
    assert EarlyFiringSchedule() == [0, 0, 0, 0] + [0, 0];
    RunAppend(AsWritten, KeepPath, Rparse("r", EarlyFiringTree(Missing)), [0, 0, 0, 0], [0, 0]);
  }

  // ---------------------------------------------------------------------
  // Where the counter does work: a directory holding only files
  // ---------------------------------------------------------------------

  /** After the root's listing of a flat directory: only file `stat`s are
      outstanding, the counter equals them, every finished `stat` has pushed
      its path, and `callback` has fired exactly when none remain. */
  ghost predicate FlatPhase(s: State<string>, n: nat)
  {
    !s.aborted
    && (forall k :: 0 <= k < |s.pool| ==> s.pool[k].StatDone? && s.pool[k].entry == File)
    && s.remaining == |s.pool|
    && |s.collection| + |s.pool| == n
    && s.deliveries == (if s.pool == [] then [s.collection] else [])
  }

  lemma FlatPhaseStep(s: State<string>, n: nat, i: nat)
    requires FlatPhase(s, n) && i < |s.pool|
    ensures FlatPhase(Step(AsWritten, KeepPath, s, i), n)
  {
    var rest := Remove(s.pool, i);
    assert forall k :: 0 <= k < |rest| ==> rest[k] == (if k < i then s.pool[k] else s.pool[k + 1]);
  }

  lemma {:induction false} FlatPhaseRun(s: State<string>, n: nat, sched: seq<nat>)
    requires FlatPhase(s, n) && Schedulable(AsWritten, KeepPath, s, sched)
    ensures FlatPhase(Run(AsWritten, KeepPath, s, sched), n)
    decreases |sched|
  {
    if sched != [] {
      FlatPhaseStep(s, n, sched[0]);
      FlatPhaseRun(Step(AsWritten, KeepPath, s, sched[0]), n, sched[1..]);
    }
  }

  /** The first two callbacks of `rparse` on a flat directory, the root's
      `stat` and its listing, lead into the flat phase. */
  lemma FlatDirOpens(basePath: string, ch: seq<Child>, a: nat, b: nat)
    requires |ch| >= 1 && forall k :: 0 <= k < |ch| ==> ch[k].entry == File
    requires Schedulable(AsWritten, KeepPath, Rparse(basePath, Dir(ch)), [a, b])
    ensures FlatPhase(Run(AsWritten, KeepPath, Rparse(basePath, Dir(ch)), [a, b]), |ch|)
    ensures Run(AsWritten, KeepPath, Rparse(basePath, Dir(ch)), [a, b]).pool != []
  {
    var s0 := Rparse(basePath, Dir(ch));
    var s1 := Step(AsWritten, KeepPath, s0, a);
    assert s1.pool == [ReaddirDone(basePath, ch)] && s1.remaining == 0;
    var s2 := Step(AsWritten, KeepPath, s1, b);
    assert s2.pool == Spawn(basePath, ch) && s2.remaining == |ch| && s2.collection == [] && s2.deliveries == [];
    assert Run(AsWritten, KeepPath, s1, [b]) == s2;
  }

  /** `rparse` on a directory of n >= 1 regular files: whatever the order of
      events, `callback` fires at most once, exactly when nothing is left
      outstanding, and then with all n paths. */
  lemma FlatDirFiresOnceAtEnd(basePath: string, ch: seq<Child>, sched: seq<nat>)
    requires |ch| >= 1 && forall k :: 0 <= k < |ch| ==> ch[k].entry == File
    requires Schedulable(AsWritten, KeepPath, Rparse(basePath, Dir(ch)), sched)
    ensures !Run(AsWritten, KeepPath, Rparse(basePath, Dir(ch)), sched).aborted
    ensures |Run(AsWritten, KeepPath, Rparse(basePath, Dir(ch)), sched).deliveries| <= 1
    ensures |Run(AsWritten, KeepPath, Rparse(basePath, Dir(ch)), sched).deliveries| == 1
        <==> Run(AsWritten, KeepPath, Rparse(basePath, Dir(ch)), sched).pool == []
    ensures Run(AsWritten, KeepPath, Rparse(basePath, Dir(ch)), sched).pool == [] ==>
      |Run(AsWritten, KeepPath, Rparse(basePath, Dir(ch)), sched).deliveries[0]| == |ch|
  {
    var s0 := Rparse(basePath, Dir(ch));
    if |sched| >= 2 {
      var opening := [sched[0], sched[1]];
      assert sched == opening + sched[2..];
      RunAppendSplit(AsWritten, KeepPath, s0, opening, sched[2..]);
      FlatDirOpens(basePath, ch, sched[0], sched[1]);
      FlatPhaseRun(Run(AsWritten, KeepPath, s0, opening), |ch|, sched[2..]);
    } else if |sched| == 1 {
      assert Run(AsWritten, KeepPath, s0, sched) == Step(AsWritten, KeepPath, s0, sched[0]);
    }
  }
}

=== FILE: async_ledger.dfy ===
/** The accounting under which the completion test of `rparse`/`rparsef` is
    sound: a directory's unit of work is handed to its `readdir` instead of
    being dropped at its `stat`, and every resolved event settles its own
    unit. The counter then always equals the number of outstanding events. */
module AsyncLedger {
  import opened Wrappers
  import opened FsTree
  import opened AsyncWalk

  /** The counter equals the outstanding events; the callback has fired
      exactly when nothing is outstanding, and with the final collection; a
      walk that threw has not called back. */
  ghost predicate Balanced<V>(s: State<V>)
  {
    if s.aborted then s.pool == [] && s.deliveries == []
    else s.remaining == |s.pool| && s.deliveries == (if s.pool == [] then [s.collection] else [])
  }

  lemma LedgerStepKeepsBalance<V>(filter: string -> Option<V>, s: State<V>, i: nat)
    requires Balanced(s) && i < |s.pool|
    ensures Balanced(Step(Ledger, filter, s, i))
  {
    var rest := Remove(s.pool, i);
    match s.pool[i] {
      case StatDone(p, e) =>
        if e.Dir? {
          assert |rest + [ReaddirDone(p, e.children)]| == |s.pool|;
        }
      case ReaddirDone(p, ch) =>
        assert |rest + Spawn(p, ch)| == |s.pool| - 1 + |ch|;
    }
  }

  lemma {:induction false} LedgerRunKeepsBalance<V>(filter: string -> Option<V>, s: State<V>, sched: seq<nat>)
    requires Balanced(s) && Schedulable(Ledger, filter, s, sched)
    ensures Balanced(Run(Ledger, filter, s, sched))
    decreases |sched|
  {
    if sched != [] {
      LedgerStepKeepsBalance(filter, s, sched[0]);
      LedgerRunKeepsBalance(filter, Step(Ledger, filter, s, sched[0]), sched[1..]);
    }
  }

  /** Over every order of events, the ledger calls back at most once, exactly
      when every issued `stat` and `readdir` has resolved without a throw,
      and then with the whole collection; a walk that throws never calls
      back; the counter always equals the number of outstanding events. */
  lemma LedgerFiresOnceWhenDrained<V>(filter: string -> Option<V>, basePath: string, root: Entry, sched: seq<nat>)
    requires Schedulable(Ledger, filter, Start(basePath, root), sched)
    ensures |Run(Ledger, filter, Start(basePath, root), sched).deliveries| <= 1
    ensures |Run(Ledger, filter, Start(basePath, root), sched).deliveries| == 1
        <==> Run(Ledger, filter, Start(basePath, root), sched).pool == [] && !Run(Ledger, filter, Start(basePath, root), sched).aborted
    ensures Run(Ledger, filter, Start(basePath, root), sched).deliveries != []
        ==> Run(Ledger, filter, Start(basePath, root), sched).deliveries == [Run(Ledger, filter, Start(basePath, root), sched).collection]
    ensures Run(Ledger, filter, Start(basePath, root), sched).aborted
        ==> Run(Ledger, filter, Start(basePath, root), sched).deliveries == []
    ensures !Run(Ledger, filter, Start(basePath, root), sched).aborted
        ==> Run(Ledger, filter, Start(basePath, root), sched).remaining == |Run(Ledger, filter, Start(basePath, root), sched).pool|
  {
    LedgerRunKeepsBalance(filter, Start(basePath, root), sched);
  }
}

=== FILE: async_results.dfy ===
/** What the asynchronous walks collect, and how long they can run, whatever
    the order of events and whichever accounting keeps the counter: the
    collection, the outstanding events and the throw on a failing `stat` do
    not depend on the counter at all. */
module AsyncResults {
  import opened Wrappers
  import opened FsTree
  import opened AsyncWalk
  import opened SyncWalk

  // ---------------------------------------------------------------------
  // What an outstanding event will still contribute
  // ---------------------------------------------------------------------

  /** The accepted values still to come from the files below an event. */
  ghost function EvYield<V>(filter: string -> Option<V>, ev: Event): multiset<V>
  {
    match ev
    case StatDone(p, e) => multiset(FilterAll(filter, FilesOf(None, p, e)))
    case ReaddirDone(p, ch) => multiset(FilterAll(filter, FilesOfChildren(None, p, ch)))
  }

  ghost function PoolYield<V>(filter: string -> Option<V>, pool: seq<Event>): multiset<V>
  {
    if pool == [] then multiset{} else EvYield(filter, pool[0]) + PoolYield(filter, pool[1..])
  }

  lemma {:induction false} PoolYieldAppend<V>(filter: string -> Option<V>, a: seq<Event>, b: seq<Event>)
    ensures PoolYield(filter, a + b) == PoolYield(filter, a) + PoolYield(filter, b)
  {
    if a == [] {
      assert a + b == b;
    } else {
      assert (a + b)[1..] == a[1..] + b;
      PoolYieldAppend(filter, a[1..], b);
    }
  }

  lemma {:induction false} PoolYieldRemove<V>(filter: string -> Option<V>, pool: seq<Event>, i: nat)
    requires i < |pool|
    ensures PoolYield(filter, Remove(pool, i)) + EvYield(filter, pool[i]) == PoolYield(filter, pool)
    decreases i
  {
    if i == 0 {
      assert Remove(pool, 0) == pool[1..];
    } else {
      var rest := Remove(pool[1..], i - 1);
      RemoveKeepsHead(pool, i);
      assert ([pool[0]] + rest)[1..] == rest;
      PoolYieldRemove(filter, pool[1..], i - 1);
    }
  }

  lemma {:induction false} PoolYieldSpawn<V>(filter: string -> Option<V>, path: string, ch: seq<Child>)
    ensures PoolYield(filter, Spawn(path, ch)) == EvYield(filter, ReaddirDone(path, ch))
    decreases |ch|
  {
    if ch != [] {
      assert Spawn(path, ch)[1..] == Spawn(path, ch[1..]);
      PoolYieldSpawn(filter, path, ch[1..]);
      FilterAllAppend(filter, FilesOf(None, Join(path, ch[0].name), ch[0].entry), FilesOfChildren(None, path, ch[1..]));
    }
  }

  // ---------------------------------------------------------------------
  // Counting measures: failing stats still to come, and work still to do
  // ---------------------------------------------------------------------

  /** The number of entries in the tree whose `stat` fails. */
  function MissingCount(e: Entry): nat
    decreases e
  {
    match e
    case Missing => 1
    case Dir(ch) => MissingCountChildren(ch)
    case _ => 0
  }

  function MissingCountChildren(ch: seq<Child>): nat
    decreases ch
  {
    if ch == [] then 0 else MissingCount(ch[0].entry) + MissingCountChildren(ch[1..])
  }

  /** One unit per `stat` and per `readdir` callback the tree can cause. */
  function Weight(e: Entry): nat
    decreases e
  {
    match e
    case Dir(ch) => 2 + WeightChildren(ch)
    case _ => 1
  }

  function WeightChildren(ch: seq<Child>): nat
    decreases ch
  {
    if ch == [] then 0 else Weight(ch[0].entry) + WeightChildren(ch[1..])
  }

  function EvMissing(ev: Event): nat
  {
    match ev
    case StatDone(_, e) => MissingCount(e)
    case ReaddirDone(_, ch) => MissingCountChildren(ch)
  }

  function EvWeight(ev: Event): nat
  {
    match ev
    case StatDone(_, e) => Weight(e)
    case ReaddirDone(_, ch) => 1 + WeightChildren(ch)
  }

  lemma {:induction false} SumSpawn(path: string, ch: seq<Child>)
    ensures Sum(Spawn(path, ch), EvMissing) == MissingCountChildren(ch)
    ensures Sum(Spawn(path, ch), EvWeight) == WeightChildren(ch)
    decreases |ch|
  {
    if ch != [] {
      assert Spawn(path, ch)[1..] == Spawn(path, ch[1..]);
      SumSpawn(path, ch[1..]);
    }
  }

  /** Without an ignore pattern, the synchronous walk meets a failing `stat`
      exactly when the tree holds one. */
  lemma {:induction false} MissingReachedIffCounted(path: string, e: Entry)
    ensures MissingReached(None, path, e) <==> MissingCount(e) > 0
    decreases e
  {
    if e.Dir? {
      MissingReachedChildrenIffCounted(path, e.children);
    }
  }

  lemma {:induction false} MissingReachedChildrenIffCounted(path: string, ch: seq<Child>)
    ensures MissingReachedChildren(None, path, ch) <==> MissingCountChildren(ch) > 0
    decreases ch
  {
    if ch != [] {
      MissingReachedIffCounted(Join(path, ch[0].name), ch[0].entry);
      MissingReachedChildrenIffCounted(path, ch[1..]);
    }
  }

  // ---------------------------------------------------------------------
  // One callback at a time
  // ---------------------------------------------------------------------

  /** The event `i` chosen by a callback that does not throw is replaced in
      the pool by `added`, and the collection grows by `pushed`. */
  lemma StepShape<V>(acc: Accounting, filter: string -> Option<V>, s: State<V>, i: nat)
    requires i < |s.pool|
    requires !Step(acc, filter, s, i).aborted
    ensures Step(acc, filter, s, i).pool == Remove(s.pool, i) + Added(s.pool[i])
    ensures Step(acc, filter, s, i).collection == s.collection + Pushed(filter, s.pool[i])
  {
  }

  /** The events a non-throwing callback issues. */
  function Added(ev: Event): seq<Event>
  {
    match ev
    case StatDone(p, Dir(ch)) => [ReaddirDone(p, ch)]
    case StatDone(_, _) => []
    case ReaddirDone(p, ch) => Spawn(p, ch)
  }

  /** What a non-throwing callback pushes onto the collection. */
  function Pushed<V>(filter: string -> Option<V>, ev: Event): seq<V>
  {
    match ev
    case StatDone(p, File) => Keep(filter(p))
    case _ => []
  }

  /** What an event will still contribute is what its callback pushes plus
      what the events it issues will contribute. */
  lemma EventYieldSplits<V>(filter: string -> Option<V>, ev: Event)
    requires !(ev.StatDone? && ev.entry.Missing?)
    ensures EvYield(filter, ev) == multiset(Pushed(filter, ev)) + PoolYield(filter, Added(ev))
  {
    match ev {
      case StatDone(p, e) =>
        match e {
          case Dir(ch) =>
            var rd := ReaddirDone(p, ch);
            assert PoolYield(filter, [rd]) == EvYield(filter, rd) + PoolYield(filter, []);
          case File =>
            assert FilterAll(filter, FilesOf(None, p, e)) == Keep(filter(p)) + FilterAll(filter, []);
          case _ =>
        }
      case ReaddirDone(p, ch) =>
        PoolYieldSpawn(filter, p, ch);
    }
  }

  /** The failing `stat`s still to come below an event that is not itself
      one are those below the events it issues. */
  lemma EventMissingSplits(ev: Event)
    requires !(ev.StatDone? && ev.entry.Missing?)
    ensures EvMissing(ev) == Sum(Added(ev), EvMissing)
  {
    match ev {
      case StatDone(p, e) =>
        if e.Dir? {
          SumOne(ReaddirDone(p, e.children), EvMissing);
        }
      case ReaddirDone(p, ch) =>
        SumSpawn(p, ch);
    }
  }

  /** Replacing event `i` by the requests it issues, while pushing what its
      callback pushes, conserves collected plus still-to-come values. */
  lemma ReplacementConservesYield<V>(filter: string -> Option<V>, pool: seq<Event>, i: nat, collection: seq<V>)
    requires i < |pool| && pool[i] != StatDone(pool[i].path, Missing)
    ensures multiset(collection + Pushed(filter, pool[i])) + PoolYield(filter, Remove(pool, i) + Added(pool[i]))
         == multiset(collection) + PoolYield(filter, pool)
  {
    EventYieldSplits(filter, pool[i]);
    PoolYieldRemove(filter, pool, i);
    PoolYieldAppend(filter, Remove(pool, i), Added(pool[i]));
  }

  lemma ReplacementConservesMissing(pool: seq<Event>, i: nat)
    requires i < |pool| && pool[i] != StatDone(pool[i].path, Missing)
    ensures Sum(Remove(pool, i) + Added(pool[i]), EvMissing) == Sum(pool, EvMissing)
  {
    EventMissingSplits(pool[i]);
    SumRemove(pool, i, EvMissing);
    SumAppend(Remove(pool, i), Added(pool[i]), EvMissing);
  }

  /** A callback that does not throw moves accepted values from the
      outstanding events into the collection without losing or inventing
      any, and keeps the failing `stat`s still to come. */
  lemma StepConserves<V>(acc: Accounting, filter: string -> Option<V>, s: State<V>, i: nat)
    requires i < |s.pool|
    requires !Step(acc, filter, s, i).aborted
    ensures multiset(Step(acc, filter, s, i).collection) + PoolYield(filter, Step(acc, filter, s, i).pool)
         == multiset(s.collection) + PoolYield(filter, s.pool)
    ensures Sum(Step(acc, filter, s, i).pool, EvMissing) == Sum(s.pool, EvMissing)
  {
    StepShape(acc, filter, s, i);
    assert s.pool[i] != StatDone(s.pool[i].path, Missing);
    ReplacementConservesYield(filter, s.pool, i, s.collection);
    ReplacementConservesMissing(s.pool, i);
  }

  /** Every callback, throwing or not, removes at least one unit of work. */
  lemma StepShrinksWork<V>(acc: Accounting, filter: string -> Option<V>, s: State<V>, i: nat)
    requires i < |s.pool|
    ensures Sum(Step(acc, filter, s, i).pool, EvWeight) < Sum(s.pool, EvWeight)
  {
    var rest := Remove(s.pool, i);
    SumRemove(s.pool, i, EvWeight);
    match s.pool[i] {
      case StatDone(p, e) =>
        if e.Dir? {
          SumAppend(rest, [ReaddirDone(p, e.children)], EvWeight);
          SumOne(ReaddirDone(p, e.children), EvWeight);
        }
      case ReaddirDone(p, ch) =>
        SumAppend(rest, Spawn(p, ch), EvWeight);
        SumSpawn(p, ch);
    }
  }

  // ---------------------------------------------------------------------
  // Whole runs
  // ---------------------------------------------------------------------

  lemma {:induction false} RunConserves<V>(acc: Accounting, filter: string -> Option<V>, s: State<V>, sched: seq<nat>)
    requires Schedulable(acc, filter, s, sched)
    requires !Run(acc, filter, s, sched).aborted
    ensures multiset(Run(acc, filter, s, sched).collection) + PoolYield(filter, Run(acc, filter, s, sched).pool)
         == multiset(s.collection) + PoolYield(filter, s.pool)
    ensures Sum(Run(acc, filter, s, sched).pool, EvMissing) == Sum(s.pool, EvMissing)
    decreases |sched|
  {
    if sched != [] {
      var t := Step(acc, filter, s, sched[0]);
      if t.aborted {
        AbortIsFinal(acc, filter, t, sched[1..]);
      }
      StepConserves(acc, filter, s, sched[0]);
      RunConserves(acc, filter, t, sched[1..]);
    }
  }

  /** A run throws only when a failing `stat` was still to come. */
  lemma {:induction false} AbortNeedsMissing<V>(acc: Accounting, filter: string -> Option<V>, s: State<V>, sched: seq<nat>)
    requires Schedulable(acc, filter, s, sched) && !s.aborted
    requires Run(acc, filter, s, sched).aborted
    ensures Sum(s.pool, EvMissing) > 0
    decreases |sched|
  {
    var i := sched[0];
    var t := Step(acc, filter, s, i);
    SumRemove(s.pool, i, EvMissing);
    if !t.aborted {
      StepConserves(acc, filter, s, i);
      AbortNeedsMissing(acc, filter, t, sched[1..]);
    }
  }

  /** Every schedule ends after at most `Weight(root)` callbacks: one per
      entry's `stat` and one per directory's `readdir`. */
  lemma {:induction false} RunLengthBounded<V>(acc: Accounting, filter: string -> Option<V>, s: State<V>, sched: seq<nat>)
    requires Schedulable(acc, filter, s, sched)
    ensures |sched| <= Sum(s.pool, EvWeight)
    decreases |sched|
  {
    if sched != [] {
      StepShrinksWork(acc, filter, s, sched[0]);
      RunLengthBounded(acc, filter, Step(acc, filter, s, sched[0]), sched[1..]);
    }
  }

  lemma WalksTerminate<V>(acc: Accounting, filter: string -> Option<V>, basePath: string, root: Entry, sched: seq<nat>)
    requires Schedulable(acc, filter, Start(basePath, root), sched)
    ensures |sched| <= Weight(root)
  {
    RunLengthBounded(acc, filter, Start(basePath, root), sched);
    SumOne(StatDone(basePath, root), EvWeight);
  }

  /** A drained run that did not throw has collected every accepted value
      of the tree's files, and the tree holds no failing `stat`. */
  lemma DrainedRunCollectsAll<V>(acc: Accounting, filter: string -> Option<V>, basePath: string, root: Entry, sched: seq<nat>)
    requires Schedulable(acc, filter, Start(basePath, root), sched)
    requires Run(acc, filter, Start(basePath, root), sched).pool == []
    requires !Run(acc, filter, Start(basePath, root), sched).aborted
    ensures MissingCount(root) == 0
    ensures multiset(Run(acc, filter, Start(basePath, root), sched).collection)
         == multiset(FilterAll(filter, FilesOf(None, basePath, root)))
  {
    var s: State<V> := Start(basePath, root);
    var r := Run(acc, filter, s, sched);
    var ev := StatDone(basePath, root);
    assert s.pool == [ev];
    SumOne(ev, EvMissing);
    assert PoolYield(filter, [ev]) == EvYield(filter, ev) + PoolYield(filter, []);
    RunConserves(acc, filter, s, sched);
    assert PoolYield(filter, r.pool) == multiset{};
    assert Sum(r.pool, EvMissing) == 0;
    assert multiset(r.collection) == multiset(s.collection) + PoolYield(filter, s.pool);
    assert multiset(s.collection) == multiset{};
    assert PoolYield(filter, s.pool) == EvYield(filter, ev);
  }

  /** Once every outstanding callback has run, the asynchronous walk has
      thrown exactly when `rparsefSYNC` (without an ignore pattern) throws on
      the same tree; when neither throws, the async collection holds the
      same accepted values as the synchronous result, in some order. This
      holds for either accounting, whatever the order of events. */
  lemma DrainedRunAgreesWithSyncWalk<V>(acc: Accounting, filter: string -> Option<V>, basePath: string, root: Entry, sched: seq<nat>)
    requires Schedulable(acc, filter, Start(basePath, root), sched)
    requires Run(acc, filter, Start(basePath, root), sched).pool == []
    ensures Run(acc, filter, Start(basePath, root), sched).aborted
        <==> RparsefSync(basePath, Callable(filter), None, root).Failure?
    ensures !Run(acc, filter, Start(basePath, root), sched).aborted ==>
      multiset(RparsefSync(basePath, Callable(filter), None, root).value)
        == multiset(Run(acc, filter, Start(basePath, root), sched).collection)
  {
    var s: State<V> := Start(basePath, root);
    var r := Run(acc, filter, s, sched);
    MissingReachedIffCounted(basePath, root);
    if r.aborted {
      AbortNeedsMissing(acc, filter, s, sched);
      SumOne(StatDone(basePath, root), EvMissing);
    } else {
      DrainedRunCollectsAll(acc, filter, basePath, root, sched);
    }
  }

  /** `rparse`: once every outstanding callback has run without a throw, the
      collection holds exactly the tree's file paths, in some order. */
  lemma RparseCollectsEveryFile(acc: Accounting, basePath: string, root: Entry, sched: seq<nat>)
    requires Schedulable(acc, KeepPath, Rparse(basePath, root), sched)
    requires Run(acc, KeepPath, Rparse(basePath, root), sched).pool == []
    requires !Run(acc, KeepPath, Rparse(basePath, root), sched).aborted
    ensures multiset(Run(acc, KeepPath, Rparse(basePath, root), sched).collection) == multiset(FilesOf(None, basePath, root))
  {
    DrainedRunCollectsAll(acc, KeepPath, basePath, root, sched);
    KeepPathKeepsAll(FilesOf(None, basePath, root));
  }

  /** `rparsef` decides on its argument alone, whatever the tree, and
      rejects exactly the filters `rparsefSYNC` rejects before its walk. */
  lemma RparsefChecksBeforeWalking<V>(basePath: string, filter: FilterArg<V>, ignore: Option<string -> bool>, root: Entry, other: Entry)
    ensures Rparsef(basePath, filter, root).Failure? <==> Rparsef(basePath, filter, other).Failure?
    ensures Rparsef(basePath, filter, root).Failure? <==> RparsefSync(basePath, filter, ignore, other) == Failure(FilterNotFunction)
  {
  }
}

=== FILE: async_walk.dfy ===
/** `rparse` and `rparsef` of fileparsers.js as a state machine. Every
    `fs.stat` and `fs.readdir` the walk has issued but whose callback has not
    run yet is an outstanding event in a pool; the event loop may run the
    callback of ANY outstanding event next, and a schedule is the sequence of
    those choices. Each callback runs to completion before the next starts.

    Two ways of keeping the pending-work counter are modelled side by side:
    `AsWritten`, the accounting of the source, and `Ledger`, the accounting
    that makes the completion test sound. They differ only in `remaining`
    and in when the callback fires. */
module AsyncWalk {
  import opened Wrappers
  import opened FsTree

  /** A callback the event loop may run next. */
  datatype Event =
    | StatDone(path: string, entry: Entry)                // `fs.stat(path, ...)` has an answer
    | ReaddirDone(path: string, children: seq<Child>)     // `fs.readdir(path, ...)` has an answer

  /** How the counter is kept. */
  datatype Accounting =
    | AsWritten   // fileparsers.js: -1 on a directory's or file's stat, +n on a listing of n names
    | Ledger      // a directory's unit passes to its listing; every resolved event settles one unit

  /** One walk in progress. `deliveries` lists the collections passed to
      `callback`, one per invocation; `aborted` records an exception thrown
      inside a `stat` callback, after which nothing else runs. */
  datatype State<V> = State(
    remaining: int,
    pool: seq<Event>,
    collection: seq<V>,
    deliveries: seq<seq<V>>,
    aborted: bool)

  /** The walk right after `parseR(basePath)`: the counter is 1 and the
      root's `stat` is the only outstanding request. */
  function Start<V>(basePath: string, root: Entry): State<V>
  {
    State(1, [StatDone(basePath, root)], [], [], false)
  }

  /** `rparse` pushes every file path it meets: its filter keeps everything. */
  function KeepPath(path: string): Option<string>
  {
    Some(path)
  }

  /** With `KeepPath` every path offered is pushed, unchanged and in order. */
  lemma {:induction false} KeepPathKeepsAll(paths: seq<string>)
    ensures FilterAll(KeepPath, paths) == paths
  {
    if paths != [] {
      KeepPathKeepsAll(paths[1..]);
    }
  }

  /** `rparse(basePath, callback)`: no argument check, so every call starts
      a walk that will push every file path it meets. */
  function Rparse(basePath: string, root: Entry): State<string>
  {
    Start(basePath, root)
  }

  /** `rparsef(basePath, filter, callback)`: throws before any filesystem
      access unless `filter` is a function. */
  function Rparsef<V>(basePath: string, filter: FilterArg<V>, root: Entry): Result<State<V>, WalkError>
  {
    match filter
    case Callable(_) => Success(Start(basePath, root))
    case _ => Failure(FilterNotFunction)
  }

  /** The `stat` requests `files.forEach(file => parseR(path + '/' + file))`
      issues, in listing order. */
  function Spawn(path: string, ch: seq<Child>): seq<Event>
  {
    seq(|ch|, k requires 0 <= k < |ch| => StatDone(Join(path, ch[k].name), ch[k].entry))
  }

  /** The pool without its `i`-th event. */
  function Remove(pool: seq<Event>, i: nat): (rest: seq<Event>)
    requires i < |pool|
    ensures |rest| == |pool| - 1
  {
    pool[..i] + pool[i + 1..]
  }

  // ---------------------------------------------------------------------
  // Additive measures over the pool
  // ---------------------------------------------------------------------

  /** The sum of `g` over the outstanding events. */
  function Sum(pool: seq<Event>, g: Event -> nat): nat
  {
    if pool == [] then 0 else g(pool[0]) + Sum(pool[1..], g)
  }

  lemma {:induction false} SumAppend(a: seq<Event>, b: seq<Event>, g: Event -> nat)
    ensures Sum(a + b, g) == Sum(a, g) + Sum(b, g)
  {
    if a == [] {
      assert a + b == b;
    } else {
      assert (a + b)[1..] == a[1..] + b;
      SumAppend(a[1..], b, g);
    }
  }

  /** Removing an event other than the first keeps the first. */
  lemma RemoveKeepsHead(pool: seq<Event>, i: nat)
    requires 0 < i < |pool|
    ensures Remove(pool, i) == [pool[0]] + Remove(pool[1..], i - 1)
  {
    assert pool[..i] == [pool[0]] + pool[1..][..i - 1];
    assert pool[i + 1..] == pool[1..][i..];
  }

  lemma {:induction false} SumRemove(pool: seq<Event>, i: nat, g: Event -> nat)
    requires i < |pool|
    ensures Sum(Remove(pool, i), g) + g(pool[i]) == Sum(pool, g)
    decreases i
  {
    if i == 0 {
      assert Remove(pool, 0) == pool[1..];
    } else {
      var rest := Remove(pool[1..], i - 1);
      RemoveKeepsHead(pool, i);
      assert ([pool[0]] + rest)[1..] == rest;
      SumRemove(pool[1..], i - 1, g);
    }
  }

  lemma SumOne(ev: Event, g: Event -> nat)
    ensures Sum([ev], g) == g(ev)
  {
    assert Sum([ev], g) == g(ev) + Sum([], g);
  }

  /** Sets the counter and fires the callback when it is exactly 0. */
  function Settle<V>(s: State<V>, n: int): State<V>
  {
    s.(remaining := n, deliveries := if n == 0 then s.deliveries + [s.collection] else s.deliveries)
  }

  /** Runs the callback of the `i`-th outstanding event.
      - `stat` failed: the callback throws; the walk is dead.
      - a directory: `readdir` is issued; AsWritten takes 1 off the counter
        and never checks it here.
      - a file: its `filter` value is pushed when truthy, 1 comes off the
        counter, and the callback fires if the counter is now 0.
      - neither: AsWritten does nothing at all.
      - a listing of n names: n `stat`s are issued and AsWritten adds n. */
  function Step<V>(acc: Accounting, filter: string -> Option<V>, s: State<V>, i: nat): (r: State<V>)
    requires i < |s.pool|
    ensures s.collection <= r.collection
    ensures s.deliveries <= r.deliveries && |r.deliveries| <= |s.deliveries| + 1
    ensures |r.deliveries| > |s.deliveries| ==> r.remaining == 0 && r.deliveries[|s.deliveries|] == r.collection
    ensures acc == AsWritten && |r.deliveries| > |s.deliveries| ==> s.pool[i].StatDone? && s.pool[i].entry.File?
    ensures r.aborted != s.aborted ==> r.aborted && r.pool == [] && r.deliveries == s.deliveries
  {
    var rest := Remove(s.pool, i);
    match s.pool[i]
    case StatDone(p, Missing) =>
      s.(pool := [], aborted := true)
    case StatDone(p, Other) =>
      if acc == AsWritten then s.(pool := rest)
      else Settle(s.(pool := rest), s.remaining - 1)
    case StatDone(p, Dir(ch)) =>
      var t := s.(pool := rest + [ReaddirDone(p, ch)]);
      if acc == AsWritten then t.(remaining := s.remaining - 1) else t
    case StatDone(p, File) =>
      Settle(s.(pool := rest, collection := s.collection + Keep(filter(p))), s.remaining - 1)
    case ReaddirDone(p, ch) =>
      var t := s.(pool := rest + Spawn(p, ch));
      if acc == AsWritten then t.(remaining := s.remaining + |ch|)
      else Settle(t, s.remaining + |ch| - 1)
  }

  /** Every choice in `sched` names an event outstanding at that point. */
  predicate Schedulable<V>(acc: Accounting, filter: string -> Option<V>, s: State<V>, sched: seq<nat>)
    decreases |sched|
  {
    sched == [] ||
    (sched[0] < |s.pool| && Schedulable(acc, filter, Step(acc, filter, s, sched[0]), sched[1..]))
  }

  /** The state after running the callbacks `sched` chooses, in order. */
  function Run<V>(acc: Accounting, filter: string -> Option<V>, s: State<V>, sched: seq<nat>): (r: State<V>)
    requires Schedulable(acc, filter, s, sched)
    ensures s.collection <= r.collection && s.deliveries <= r.deliveries
    decreases |sched|
  {
    if sched == [] then s else Run(acc, filter, Step(acc, filter, s, sched[0]), sched[1..])
  }

  /** Once aborted, a walk stays aborted. */
  lemma {:induction false} AbortIsFinal<V>(acc: Accounting, filter: string -> Option<V>, s: State<V>, sched: seq<nat>)
    requires Schedulable(acc, filter, s, sched)
    requires s.aborted
    ensures Run(acc, filter, s, sched).aborted
    decreases |sched|
  {
    if sched != [] {
      AbortIsFinal(acc, filter, Step(acc, filter, s, sched[0]), sched[1..]);
    }
  }

  /** A callback that throws leaves nothing outstanding, so once a walk has
      thrown no further callback can be scheduled. */
  lemma {:induction false} NothingRunsAfterAbort<V>(acc: Accounting, filter: string -> Option<V>, s: State<V>, sched: seq<nat>)
    requires Schedulable(acc, filter, s, sched)
    requires s.aborted ==> s.pool == []
    ensures s.aborted ==> sched == []
    ensures Run(acc, filter, s, sched).aborted ==> Run(acc, filter, s, sched).pool == []
    decreases |sched|
  {
    if sched != [] {
      NothingRunsAfterAbort(acc, filter, Step(acc, filter, s, sched[0]), sched[1..]);
    }
  }

  /** From the start of `rparse`/`rparsef`: once a callback has thrown, no
      callback is outstanding, so nothing else runs. */
  lemma AbortEndsWalk<V>(acc: Accounting, filter: string -> Option<V>, basePath: string, root: Entry, sched: seq<nat>, more: seq<nat>)
    requires Schedulable(acc, filter, Start(basePath, root), sched)
    requires Run(acc, filter, Start(basePath, root), sched).aborted
    requires Schedulable(acc, filter, Run(acc, filter, Start(basePath, root), sched), more)
    ensures Run(acc, filter, Start(basePath, root), sched).pool == []
    ensures more == []
  {
    NothingRunsAfterAbort(acc, filter, Start(basePath, root), sched);
  }
}

=== FILE: ext_filter.dfy ===
/** `extReg` and `matcher` of fileparsers.js: building an extension filter
    from a string. The pattern `[\w\-\/]+\.<ext>` is modelled for an `ext`
    read literally, character by character. */
module ExtFilter {
  import opened Wrappers

  /** The JavaScript value passed as `ext`: a string, or some other value. */
  datatype ExtArg = Str(s: string) | NonString

  /** The error `extReg` throws: the argument "is not a file extension". */
  datatype ExtError = NotAnExtension

  /** The global regular expression `[\w\-\/]+\.<ext>` built by `extReg`. */
  datatype ExtPattern = ExtPattern(ext: string)

  /** The class of the guard `[a-zA-Z0-9\/]`. */
  predicate IsGuardChar(c: char)
  {
    ('a' <= c <= 'z') || ('A' <= c <= 'Z') || ('0' <= c <= '9') || c == '/'
  }

  /** The class `[\w\-\/]`: letters, digits, underscore, hyphen, slash. */
  predicate IsPathChar(c: char)
  {
    ('a' <= c <= 'z') || ('A' <= c <= 'Z') || ('0' <= c <= '9') || c == '_' || c == '-' || c == '/'
  }

  /** The unanchored test `parse_ext.test(ext)`: succeeds as soon as one
      character anywhere belongs to the guard class. */
  function GuardTest(s: string): (b: bool)
    ensures b <==> exists i :: 0 <= i < |s| && IsGuardChar(s[i])
  {
    if s == [] then false
    else if IsGuardChar(s[0]) then true
    else
      assert forall i :: 1 <= i < |s| ==> s[i] == s[1..][i - 1];
      GuardTest(s[1..])
  }

  /** `extReg(ext)`: throws unless `ext` is a truthy string that passes the
      guard test; otherwise returns the pattern built around `ext`. */
  function ExtReg(ext: ExtArg): (r: Result<ExtPattern, ExtError>)
    ensures r.Success? <==> ext.Str? && exists i :: 0 <= i < |ext.s| && IsGuardChar(ext.s[i])
    ensures r.Success? ==> r.value.ext == ext.s
    ensures r.Failure? ==> r.error == NotAnExtension
  {
    match ext
    case NonString => Failure(NotAnExtension)
    case Str(s) =>
      // a string is truthy exactly when it is non-empty
      if s != [] && GuardTest(s) then Success(ExtPattern(s)) else Failure(NotAnExtension)
  }

  // ---------------------------------------------------------------------
  // Regular-expression semantics of `[\w\-\/]+\.<ext>`
  // ---------------------------------------------------------------------

  /** Every character of `path[k..e]` is in `[\w\-\/]`. */
  ghost predicate PathRun(path: string, k: int, e: int)
    requires 0 <= k <= e <= |path|
  {
    forall i :: k <= i < e ==> IsPathChar(path[i])
  }

  /** `\.<ext>` matches at position `e`. */
  predicate DotExtAt(path: string, ext: string, e: int)
  {
    0 <= e < |path| && path[e] == '.' && ext <= path[e + 1..]
  }

  /** The pattern matches starting at `k`: some non-empty run of path
      characters `path[k..e]` (the `+`, with backtracking over its length)
      is followed by `.` and then by `ext`. */
  ghost predicate MatchesAt(path: string, ext: string, k: int)
  {
    0 <= k && exists e :: k < e <= |path| && PathRun(path, k, e) && DotExtAt(path, ext, e)
  }

  /** The plain-string reading of a match: a `.` at `j`, preceded by a path
      character and followed by `ext`. */
  predicate ExtAfterDot(path: string, ext: string, j: int)
  {
    1 <= j < |path| && IsPathChar(path[j - 1]) && DotExtAt(path, ext, j)
  }

  // ---------------------------------------------------------------------
  // Executable search, as `path.search(reg)` performs it
  // ---------------------------------------------------------------------

  /** The end of the maximal run of path characters starting at `k`. */
  function RunEnd(path: string, k: nat): (e: nat)
    requires k <= |path|
    ensures k <= e <= |path|
    ensures PathRun(path, k, e)
    ensures e < |path| ==> !IsPathChar(path[e])
    decreases |path| - k
  {
    if k < |path| && IsPathChar(path[k]) then RunEnd(path, k + 1) else k
  }

  /** A run that stops at a non-path character is the maximal run. */
  lemma RunEndIsFirstStop(path: string, k: nat, e: int)
    requires k <= e < |path| && PathRun(path, k, e) && !IsPathChar(path[e])
    ensures RunEnd(path, k) == e
  {
  }

  /** Since `.` is not a path character, the `+` can only stop where the
      maximal run stops: the pattern matches at `k` exactly when `path[k]`
      starts a run whose maximal end is followed by `.` and `ext`. */
  function MatchAt(path: string, ext: string, k: nat): (b: bool)
    requires k < |path|
    ensures b <==> MatchesAt(path, ext, k)
  {
    MatchAtIsMaximalRun(path, ext, k);
    IsPathChar(path[k]) && DotExtAt(path, ext, RunEnd(path, k))
  }

  lemma MatchAtIsMaximalRun(path: string, ext: string, k: nat)
    requires k < |path|
    ensures MatchesAt(path, ext, k) <==> IsPathChar(path[k]) && DotExtAt(path, ext, RunEnd(path, k))
  {
    if MatchesAt(path, ext, k) {
      var e :| k < e <= |path| && PathRun(path, k, e) && DotExtAt(path, ext, e);
      RunEndIsFirstStop(path, k, e);
    }
    if IsPathChar(path[k]) && DotExtAt(path, ext, RunEnd(path, k)) {
      assert k < RunEnd(path, k);
    }
  }

  /** The leftmost position at or after `k` where the pattern matches, or -1. */
  function SearchFrom(path: string, ext: string, k: nat): (r: int)
    requires k <= |path|
    ensures r == -1 || k <= r < |path|
    ensures r == -1 <==> forall i :: k <= i < |path| ==> !MatchesAt(path, ext, i)
    ensures r >= 0 ==> MatchesAt(path, ext, r) && forall i :: k <= i < r ==> !MatchesAt(path, ext, i)
    decreases |path| - k
  {
    if k == |path| then -1
    else if MatchAt(path, ext, k) then k
    else SearchFrom(path, ext, k + 1)
  }

  /** `path.search(reg)`: the index of the leftmost match, or -1. The global
      flag does not matter here, because `search` always starts from 0. */
  function Search(pat: ExtPattern, path: string): (r: int)
    ensures r == -1 || 0 <= r < |path|
    ensures r >= 0 ==> MatchesAt(path, pat.ext, r) && forall i :: 0 <= i < r ==> !MatchesAt(path, pat.ext, i)
    ensures r == -1 ==> forall i :: 0 <= i < |path| ==> !MatchesAt(path, pat.ext, i)
  {
    SearchFrom(path, pat.ext, 0)
  }

  /** `matcher(ext)`: throws exactly when `extReg` does; otherwise a filter
      that returns the path unchanged when some `.` preceded by a `[\w\-\/]`
      character is immediately followed by `ext`, anywhere in the path, and
      `undefined` otherwise. Nothing anchors the match at the end of the path. */
  function Matcher(ext: ExtArg): (r: Result<string -> Option<string>, ExtError>)
    ensures r.Success? <==> ext.Str? && exists i :: 0 <= i < |ext.s| && IsGuardChar(ext.s[i])
    ensures r.Failure? ==> r.error == NotAnExtension
    ensures r.Success? ==> forall path :: r.value(path) == Some(path) <==> exists j :: ExtAfterDot(path, ext.s, j)
    ensures r.Success? ==> forall path :: r.value(path).None? <==> !exists j :: ExtAfterDot(path, ext.s, j)
  {
    match ExtReg(ext)
    case Failure(err) => Failure(err)
    case Success(pat) =>
      var f := (path: string) => if Search(pat, path) >= 0 then Some(path) else None;
      assert forall path :: f(path) == Some(path) <==> exists j :: ExtAfterDot(path, ext.s, j) by {
        forall path
          ensures f(path) == Some(path) <==> exists j :: ExtAfterDot(path, ext.s, j)
        {
          MatchStartIffExtAfterDot(path, ext.s);
        }
      }
      Success(f)
  }

  /** Some match start exists exactly when some `.` preceded by a path
      character is immediately followed by `ext`. */
  lemma {:induction false} MatchStartIffExtAfterDot(path: string, ext: string)
    ensures (exists k :: 0 <= k < |path| && MatchesAt(path, ext, k)) <==> (exists j :: ExtAfterDot(path, ext, j))
  {
    if exists k :: 0 <= k < |path| && MatchesAt(path, ext, k) {
      var k :| 0 <= k < |path| && MatchesAt(path, ext, k);
      var e :| k < e <= |path| && PathRun(path, k, e) && DotExtAt(path, ext, e);
      assert IsPathChar(path[e - 1]);
      assert ExtAfterDot(path, ext, e);
    }
    if exists j :: ExtAfterDot(path, ext, j) {
      var j :| ExtAfterDot(path, ext, j);
      assert PathRun(path, j - 1, j);
      assert MatchesAt(path, ext, j - 1);
    }
  }

  // ---------------------------------------------------------------------
  // The source as written: two accepted inputs its documentation excludes
  // ---------------------------------------------------------------------

  /** The guard is unanchored, so a string with one guard character and
      anything else around it passes: `"js!"` and `"*j"` build patterns. */
  lemma GuardAcceptsNonExtensions()
    ensures ExtReg(Str("js!")).Success?
    ensures ExtReg(Str("*j")).Success?
    ensures ExtReg(Str("")).Failure? && ExtReg(Str("!.")).Failure? && ExtReg(NonString).Failure?
  {
    assert IsGuardChar("js!"[0]);
    assert IsGuardChar("*j"[1]);
    assert !IsGuardChar("!."[0]) && !IsGuardChar("!."[1]);
  }

  /** The pattern has no end anchor: the `"js"` filter accepts `"c.jsx"`. */
  lemma MatcherIgnoresPathEnd()
    ensures Matcher(Str("js")).Success?
    ensures Matcher(Str("js")).value("c.jsx") == Some("c.jsx")
  {
    assert IsGuardChar("js"[0]);
    assert ExtAfterDot("c.jsx", "js", 1);
  }

  /** A path ending in the extension is accepted too. */
  lemma MatcherAcceptsExtension()
    ensures Matcher(Str("js")).Success?
    ensures Matcher(Str("js")).value("a/b/c.js") == Some("a/b/c.js")
  {
    assert IsGuardChar("js"[0]);
    assert ExtAfterDot("a/b/c.js", "js", 5);
  }

  /** A bare `".js"` is rejected: its dot has no character before it. */
  lemma MatcherNeedsCharBeforeDot()
    ensures Matcher(Str("js")).Success?
    ensures Matcher(Str("js")).value(".js") == None
  {
    assert IsGuardChar("js"[0]);
  }

  // ---------------------------------------------------------------------
  // The evidently intended filter: a whole-string guard and an end anchor
  // ---------------------------------------------------------------------

  /** The guard `/^[a-zA-Z0-9\/]+$/`: a non-empty string of guard characters. */
  function StrictGuard(s: string): (b: bool)
    ensures b <==> |s| > 0 && forall i :: 0 <= i < |s| ==> IsGuardChar(s[i])
  {
    if |s| == 0 then false
    else if |s| == 1 then IsGuardChar(s[0])
    else
      assert forall i :: 1 <= i < |s| ==> s[i] == s[1..][i - 1];
      IsGuardChar(s[0]) && StrictGuard(s[1..])
  }

  /** `extReg` with the whole-string guard. */
  function StrictExtReg(ext: ExtArg): (r: Result<ExtPattern, ExtError>)
    ensures r.Success? <==> ext.Str? && |ext.s| > 0 && forall i :: 0 <= i < |ext.s| ==> IsGuardChar(ext.s[i])
    ensures r.Success? ==> r.value.ext == ext.s
  {
    match ext
    case NonString => Failure(NotAnExtension)
    case Str(s) => if StrictGuard(s) then Success(ExtPattern(s)) else Failure(NotAnExtension)
  }

  /** The anchored pattern `[\w\-\/]+\.<ext>$` matches at `k`. */
  ghost predicate MatchesAtEnd(path: string, ext: string, k: int)
  {
    0 <= k && exists e :: k < e < |path| && PathRun(path, k, e) && path[e] == '.' && path[e + 1..] == ext
  }

  /** The path ends with `.` and `ext`, and a path character precedes that dot. */
  predicate EndsWithExt(path: string, ext: string)
  {
    |path| >= |ext| + 2
    && path[|path| - |ext| - 1] == '.'
    && path[|path| - |ext|..] == ext
    && IsPathChar(path[|path| - |ext| - 2])
  }

  /** The end-anchored pattern matches somewhere in the path exactly when the
      path ends with `.<ext>` after a path character. */
  lemma {:induction false} EndAnchoredMatchIffEndsWithExt(path: string, x: string)
    ensures (exists k :: 0 <= k < |path| && MatchesAtEnd(path, x, k)) <==> EndsWithExt(path, x)
  {
    if EndsWithExt(path, x) {
      var e := |path| - |x| - 1;
      assert PathRun(path, e - 1, e);
      assert MatchesAtEnd(path, x, e - 1);
    }
    if exists k :: 0 <= k < |path| && MatchesAtEnd(path, x, k) {
      var k :| 0 <= k < |path| && MatchesAtEnd(path, x, k);
      var e :| k < e < |path| && PathRun(path, k, e) && path[e] == '.' && path[e + 1..] == x;
      assert e == |path| - |x| - 1;
      assert IsPathChar(path[e - 1]);
      assert EndsWithExt(path, x);
    }
  }

  /** `matcher` with the strict guard and the end anchor: it throws unless
      `ext` is made only of guard characters, and its filter accepts a path
      exactly when the anchored pattern `[\w\-\/]+\.<ext>$` matches in it. */
  function AnchoredMatcher(ext: ExtArg): (r: Result<string -> Option<string>, ExtError>)
    ensures r.Success? <==> ext.Str? && |ext.s| > 0 && forall i :: 0 <= i < |ext.s| ==> IsGuardChar(ext.s[i])
    ensures r.Success? ==> forall path :: r.value(path) == Some(path) <==> exists k :: 0 <= k < |path| && MatchesAtEnd(path, ext.s, k)
    ensures r.Success? ==> forall path :: r.value(path).None? <==> !exists k :: 0 <= k < |path| && MatchesAtEnd(path, ext.s, k)
  {
    match StrictExtReg(ext)
    case Failure(err) => Failure(err)
    case Success(pat) =>
      var f := (path: string) => if EndsWithExt(path, pat.ext) then Some(path) else None;
      assert forall path :: f(path) == Some(path) <==> exists k :: 0 <= k < |path| && MatchesAtEnd(path, ext.s, k) by {
        forall path
          ensures f(path) == Some(path) <==> exists k :: 0 <= k < |path| && MatchesAtEnd(path, ext.s, k)
        {
          EndAnchoredMatchIffEndsWithExt(path, ext.s);
        }
      }
      Success(f)
  }

  /** The corrected filter rejects exactly the paths the source accepts by
      mistake, and the corrected guard rejects `"js!"`. */
  lemma AnchoredMatcherExamples()
    ensures AnchoredMatcher(Str("js")).Success?
    ensures AnchoredMatcher(Str("js")).value("a/b/c.js") == Some("a/b/c.js")
    ensures AnchoredMatcher(Str("js")).value("c.jsx") == None
    ensures AnchoredMatcher(Str("js")).value("c.js2") == None
    ensures StrictExtReg(Str("js!")).Failure?
  {
    assert !IsGuardChar("js!"[2]);
  }
}

=== FILE: fs_tree.dfy ===
/** The filesystem as the walkers see it: an immutable tree of entries,
    plus the JavaScript values a caller may pass as `filter`. */
module FsTree {
  import opened Wrappers

  /** What `stat` reports for a path. `Other` is anything that is neither a
      directory nor a regular file (a socket, a device); `Missing` is a path
      whose `stat` fails (it vanished, or never existed). */
  datatype Entry =
    | Dir(children: seq<Child>)
    | File
    | Other
    | Missing

  /** One name returned by listing a directory, in listing order, with the
      entry that name resolves to. */
  datatype Child = Child(name: string, entry: Entry)

  /** The path of a listed child: the parent path, one `/`, the name. */
  function Join(parent: string, name: string): (p: string)
    ensures |p| == |parent| + 1 + |name|
    ensures p[..|parent|] == parent && p[|parent|] == '/' && p[|parent| + 1..] == name
  {
    parent + "/" + name
  }

  /** What the walkers throw: the argument check of `rparsef` and
      `rparsefSYNC`, or a failing `stat` on a path. */
  datatype WalkError = FilterNotFunction | NotFound(path: string)

  /** The value passed as `filter`: omitted or falsy, some other non-function
      value, or a function. A function returns `None` for every falsy result
      (`undefined`, `false`, `""`, `0`, `null`). */
  datatype FilterArg<V> =
    | Absent
    | NotCallable
    | Callable(fn: string -> Option<V>)

  /** What one accepted-or-rejected filter result adds to a collection. */
  function Keep<V>(o: Option<V>): (xs: seq<V>)
    ensures o.None? ==> xs == []
    ensures o.Some? ==> xs == [o.value]
  {
    match o
    case None => []
    case Some(v) => [v]
  }

  /** Applies `filter` to each path in order and keeps the accepted values. */
  function FilterAll<V>(filter: string -> Option<V>, paths: seq<string>): (xs: seq<V>)
    ensures |xs| <= |paths|
  {
    if paths == [] then [] else Keep(filter(paths[0])) + FilterAll(filter, paths[1..])
  }

  lemma {:induction false} FilterAllAppend<V>(filter: string -> Option<V>, a: seq<string>, b: seq<string>)
    ensures FilterAll(filter, a + b) == FilterAll(filter, a) + FilterAll(filter, b)
  {
    if a == [] {
      assert a + b == b;
    } else {
      assert (a + b)[1..] == a[1..] + b;
      FilterAllAppend(filter, a[1..], b);
    }
  }

  /** True when no entry anywhere in the tree is a regular file. */
  predicate NoFiles(e: Entry)
  {
    match e
    case File => false
    case Dir(ch) => forall i :: 0 <= i < |ch| ==> NoFiles(ch[i].entry)
    case _ => true
  }
}

=== FILE: sync_walk.dfy ===
/** `rparsefSYNC` of fileparsers.js: a blocking pre-order walk that applies
    `filter` to every regular file not under an ignored path. */
module SyncWalk {
  import opened Wrappers
  import opened FsTree

  /** `ignore` is either absent (`undefined`) or a pure test on a path. */
  predicate Ignored(ignore: Option<string -> bool>, path: string)
  {
    ignore.Some? && ignore.value(path)
  }

  /** The inner `parseR(path)` on the entry `path` names: skip an ignored
      path before touching it, throw when `statSync` fails, descend into a
      directory's children in listing order, offer a file to `filter`, and
      pass over anything else. It throws exactly when it reaches an entry
      that fails to `stat` without passing through an ignored path, and what
      it throws is the error of the first such entry in pre-order. */
  function Visit<V>(filter: string -> Option<V>, ignore: Option<string -> bool>, path: string, e: Entry): (r: Result<seq<V>, WalkError>)
    ensures r.Failure? <==> MissingReached(ignore, path, e)
    ensures r.Failure? <==> MissingPaths(ignore, path, e) != []
    ensures r.Failure? ==> r.error == NotFound(MissingPaths(ignore, path, e)[0])
    decreases e
  {
    if Ignored(ignore, path) then Success([])
    else
      match e
      case Missing => Failure(NotFound(path))
      case Other => Success([])
      case File => Success(Keep(filter(path)))
      case Dir(ch) => VisitChildren(filter, ignore, path, ch)
  }

  /** The loop over a directory's listing: the first child that throws ends the walk. */
  function VisitChildren<V>(filter: string -> Option<V>, ignore: Option<string -> bool>, path: string, ch: seq<Child>): (r: Result<seq<V>, WalkError>)
    ensures r.Failure? <==> MissingReachedChildren(ignore, path, ch)
    ensures r.Failure? <==> MissingPathsChildren(ignore, path, ch) != []
    ensures r.Failure? ==> r.error == NotFound(MissingPathsChildren(ignore, path, ch)[0])
    decreases ch
  {
    if ch == [] then Success([])
    else
      match Visit(filter, ignore, Join(path, ch[0].name), ch[0].entry)
      case Failure(err) => Failure(err)
      case Success(xs) =>
        match VisitChildren(filter, ignore, path, ch[1..])
        case Failure(err) => Failure(err)
        case Success(ys) => Success(xs + ys)
  }

  // ---------------------------------------------------------------------
  // Reference: the traversal without the filter
  // ---------------------------------------------------------------------

  /** The paths of the regular files reached without passing through an
      ignored path, in pre-order and listing order. */
  ghost function FilesOf(ignore: Option<string -> bool>, path: string, e: Entry): seq<string>
    decreases e
  {
    if Ignored(ignore, path) then []
    else
      match e
      case File => [path]
      case Dir(ch) => FilesOfChildren(ignore, path, ch)
      case _ => []
  }

  ghost function FilesOfChildren(ignore: Option<string -> bool>, path: string, ch: seq<Child>): seq<string>
    decreases ch
  {
    if ch == [] then []
    else FilesOf(ignore, Join(path, ch[0].name), ch[0].entry) + FilesOfChildren(ignore, path, ch[1..])
  }

  /** The paths of the entries that fail to `stat`, reached without passing
      through an ignored path, in pre-order and listing order. */
  ghost function MissingPaths(ignore: Option<string -> bool>, path: string, e: Entry): seq<string>
    decreases e
  {
    if Ignored(ignore, path) then []
    else
      match e
      case Missing => [path]
      case Dir(ch) => MissingPathsChildren(ignore, path, ch)
      case _ => []
  }

  ghost function MissingPathsChildren(ignore: Option<string -> bool>, path: string, ch: seq<Child>): seq<string>
    decreases ch
  {
    if ch == [] then []
    else MissingPaths(ignore, Join(path, ch[0].name), ch[0].entry) + MissingPathsChildren(ignore, path, ch[1..])
  }

  /** Some entry that fails to `stat` is reached without passing through an ignored path. */
  ghost predicate MissingReached(ignore: Option<string -> bool>, path: string, e: Entry)
    decreases e
  {
    !Ignored(ignore, path) &&
    match e
    case Missing => true
    case Dir(ch) => MissingReachedChildren(ignore, path, ch)
    case _ => false
  }

  ghost predicate MissingReachedChildren(ignore: Option<string -> bool>, path: string, ch: seq<Child>)
    decreases ch
  {
    ch != [] &&
    (MissingReached(ignore, Join(path, ch[0].name), ch[0].entry) || MissingReachedChildren(ignore, path, ch[1..]))
  }

  /** When the walk does not throw, it returns the accepted `filter` values
      of the unignored file paths, in pre-order and listing order, and
      nothing else. */
  lemma {:induction false} VisitIsFilteredFiles<V>(filter: string -> Option<V>, ignore: Option<string -> bool>, path: string, e: Entry)
    ensures Visit(filter, ignore, path, e).Success? ==> Visit(filter, ignore, path, e).value == FilterAll(filter, FilesOf(ignore, path, e))
    decreases e
  {
    if !Ignored(ignore, path) {
      match e
      case Dir(ch) => VisitChildrenIsFilteredFiles(filter, ignore, path, ch);
      case File => assert FilterAll(filter, [path]) == Keep(filter(path)) + FilterAll(filter, []);
      case _ =>
    }
  }

  lemma {:induction false} VisitChildrenIsFilteredFiles<V>(filter: string -> Option<V>, ignore: Option<string -> bool>, path: string, ch: seq<Child>)
    ensures VisitChildren(filter, ignore, path, ch).Success? ==> VisitChildren(filter, ignore, path, ch).value == FilterAll(filter, FilesOfChildren(ignore, path, ch))
    decreases ch
  {
    if ch != [] {
      var p := Join(path, ch[0].name);
      VisitIsFilteredFiles(filter, ignore, p, ch[0].entry);
      VisitChildrenIsFilteredFiles(filter, ignore, path, ch[1..]);
      FilterAllAppend(filter, FilesOf(ignore, p, ch[0].entry), FilesOfChildren(ignore, path, ch[1..]));
    }
  }

  /** No path the filter is offered matches `ignore`. */
  lemma {:induction false} FilesOfAreNotIgnored(ignore: Option<string -> bool>, path: string, e: Entry)
    ensures forall i :: 0 <= i < |FilesOf(ignore, path, e)| ==> !Ignored(ignore, FilesOf(ignore, path, e)[i])
    decreases e
  {
    if !Ignored(ignore, path) && e.Dir? {
      FilesOfChildrenAreNotIgnored(ignore, path, e.children);
    }
  }

  lemma {:induction false} FilesOfChildrenAreNotIgnored(ignore: Option<string -> bool>, path: string, ch: seq<Child>)
    ensures forall i :: 0 <= i < |FilesOfChildren(ignore, path, ch)| ==> !Ignored(ignore, FilesOfChildren(ignore, path, ch)[i])
    decreases ch
  {
    if ch != [] {
      FilesOfAreNotIgnored(ignore, Join(path, ch[0].name), ch[0].entry);
      FilesOfChildrenAreNotIgnored(ignore, path, ch[1..]);
    }
  }

  // ---------------------------------------------------------------------
  // Ignored subtrees are never inspected
  // ---------------------------------------------------------------------

  /** Two trees that may differ only at or below ignored paths: same kinds,
      same names in the same listing order everywhere else. */
  ghost predicate AgreeOutsideIgnored(ignore: Option<string -> bool>, path: string, a: Entry, b: Entry)
    decreases a
  {
    Ignored(ignore, path) ||
    match a
    case Dir(cha) =>
      b.Dir? && |cha| == |b.children| &&
      forall i :: 0 <= i < |cha| ==>
        cha[i].name == b.children[i].name &&
        AgreeOutsideIgnored(ignore, Join(path, cha[i].name), cha[i].entry, b.children[i].entry)
    case _ => a == b
  }

  /** Whatever lies at or below an ignored path (a file, a subtree, a path
      that does not exist) has no effect on the result: the walk never
      stats, lists or filters it. In particular an ignored root yields `[]`. */
  lemma {:induction false} IgnoredSubtreesAreInvisible<V>(filter: string -> Option<V>, ignore: Option<string -> bool>, path: string, a: Entry, b: Entry)
    requires AgreeOutsideIgnored(ignore, path, a, b)
    ensures Visit(filter, ignore, path, a) == Visit(filter, ignore, path, b)
    ensures Ignored(ignore, path) ==> Visit(filter, ignore, path, a) == Success([])
    decreases a
  {
    if !Ignored(ignore, path) && a.Dir? {
      IgnoredChildrenAreInvisible(filter, ignore, path, a.children, b.children);
    }
  }

  lemma {:induction false} IgnoredChildrenAreInvisible<V>(filter: string -> Option<V>, ignore: Option<string -> bool>, path: string, cha: seq<Child>, chb: seq<Child>)
    requires |cha| == |chb|
    requires forall i :: 0 <= i < |cha| ==>
      cha[i].name == chb[i].name && AgreeOutsideIgnored(ignore, Join(path, cha[i].name), cha[i].entry, chb[i].entry)
    ensures VisitChildren(filter, ignore, path, cha) == VisitChildren(filter, ignore, path, chb)
    decreases cha
  {
    if cha != [] {
      IgnoredSubtreesAreInvisible(filter, ignore, Join(path, cha[0].name), cha[0].entry, chb[0].entry);
      IgnoredChildrenAreInvisible(filter, ignore, path, cha[1..], chb[1..]);
    }
  }

  /** Of two entries that fail to `stat`, the walk throws the error of the
      first one listed. */
  lemma FirstFailingStatIsThrown<V>(filter: string -> Option<V>)
    ensures Visit(filter, None, "r", Dir([Child("a", Missing), Child("b", Missing)])) == Failure(NotFound("r/a"))
  {
    assert Join("r", "a") == "r/a";
  }

  // ---------------------------------------------------------------------
  // The exported function
  // ---------------------------------------------------------------------

  /** `rparsefSYNC(basePath, filter, ignore)` where `basePath` names `root`.
      The filter check comes first, before any filesystem access. */
  function RparsefSync<V>(basePath: string, filter: FilterArg<V>, ignore: Option<string -> bool>, root: Entry): (r: Result<seq<V>, WalkError>)
    ensures !filter.Callable? ==> r == Failure(FilterNotFunction)
    ensures filter.Callable? ==> (r.Failure? <==> MissingReached(ignore, basePath, root))
    ensures filter.Callable? ==> (r.Failure? <==> MissingPaths(ignore, basePath, root) != [])
    ensures filter.Callable? && r.Failure? ==> r.error == NotFound(MissingPaths(ignore, basePath, root)[0])
    ensures filter.Callable? && r.Success? ==> r.value == FilterAll(filter.fn, FilesOf(ignore, basePath, root))
  {
    match filter
    case Callable(f) =>
      VisitIsFilteredFiles(f, ignore, basePath, root);
      Visit(f, ignore, basePath, root)
    case _ => Failure(FilterNotFunction)
  }
}

=== FILE: wrappers.dfy ===
/** Option and Result, the two failure-carrying datatypes the model uses
    for JavaScript's falsy filter results and for thrown errors. */
module Wrappers {

  /** `None` stands for a missing or falsy value. */
  datatype Option<+T> = None | Some(value: T)

  /** `Failure` stands for an exception that escapes the call. */
  datatype Result<+R, +E> = Success(value: R) | Failure(error: E)
}
